=== FILE: README.md ===
# nyaasi-api search and pagination, in Dafny

A model of the search layer of the nyaasi-api client library: the entry
points that query nyaa.si's RSS feed (`searchPage`, `searchAll`, `search`,
`searchByUserAndByPage`, `searchAllByUser`, `searchByUser`, `list`) and the
item mapper `parseItems`.

The feed (URL encoding, HTTP and RSS parsing) is an oracle: a pure function
`Params -> FeedResult` from the query parameters of one request to either a
parsed document of raw items or a failure carrying its HTTP status. Everything
on top of it is modelled as written, except `searchAll`, whose corrected form
is modelled beside the as-written one (see Findings):

- `values.dfy` (`Values`): an option type and JavaScript's `x || d` on strings
  and integers. An option the caller leaves out is modelled by its falsy value
  (`""` or `0`).
- `feed.dfy` (`Feed`): raw feed items, the query-parameter record (a key a
  builder leaves out is `None`), feed failures, the library's errors, and the
  result type.
- `scrap.dfy` (`Scrap`): `parseItems` as an order- and length-preserving field
  renaming, with an inverse for the text fields.
- `query.dfy` (`Query`): the query each entry point sends, with the defaults
  `f = 0`, `c = "1_0"`, `s = "id"`, `o = "desc"`.
- `paging.dfy` (`Paging`): the two serial pagination loops as methods over an
  abstract page fetch `fetch(k)`, each proved equal to a reference function
  stated through the first page that ends the loop (`FirstStop`) and the
  ascending concatenation of pages (`PagesUpTo`); the fan-out of `searchAll`
  and the positional join of `Promise.all`.
- `nyaa.dfy` (`Nyaa`): the seven entry points. The looping ones return the
  queries they sent, in order, beside their result.

Behaviour of the code that the model keeps:

- The bounded loops of `search` and `searchByUser` stop after an empty page.
  A page shorter than 75 records does not stop them.
- Page numbers are checked for truthiness only, so a negative page is sent as
  is.
- `searchAll` never learns the page count from page 1 (see Findings). The
  corrected `Nyaa.SearchAll` takes it as an input.
- `searchAllByUser` appends each page's records one turn late, so when all
  fifteen pages answer, the records of page 15 are fetched and dropped.
- `searchPage` rejects an empty term before any request, while `list` sends
  no term at all.

## Model

| member | source | states |
|---|---|---|
| Scrap.Normalize | src/nyaasi/scrap.js:3-15 | each record field copies its raw field unchanged (name from title, description from contentSnippet, torrent from link, and the rest by name) and the date is made from isoDate; the ten text fields of the raw item can be rebuilt from the record |
| Scrap.NormalizeAll | src/nyaasi/scrap.js:2-16 | one record per item, the same length, record i made from item i |
| Scrap.ParseItems | src/nyaasi/scrap.js:1-17 | reads only the document's items, keeps their number and order, filters nothing; record i's text fields restore item i and its date is made from item i's isoDate |
| Scrap.NormalizeAllAppend | src/nyaasi/scrap.js:2 | mapping a concatenation maps each part in place, so relative order survives |
| Query.SearchParams | src/nyaasi/index.js:42-49 | the page query sends exactly f, c, q, p, s, o; q is the term and p the page; c, s, o fall back to 1_0, id, desc when falsy |
| Query.UserParams | src/nyaasi/index.js:151-157 | the user query sends exactly u, f, c, q, p: the page query plus the user and without the sort keys |
| Query.ListParams | src/nyaasi/index.js:268-274 | the listing query sends exactly f, c, p, s, o; the page defaults to 1 and the category to 1_0; it is the page query for that category with q removed |
| Query.DefaultsAreTruthy | src/nyaasi/index.js:42-49 | with no options the query is f=0, c=1_0, s=id, o=desc, and no defaulted key is ever falsy |
| Nyaa.Fetch | src/nyaasi/index.js:51-53 | a request succeeds exactly when the feed answers, with the parsed records of its document; a feed failure becomes an upstream error with the same cause |
| Nyaa.SearchPage | src/nyaasi/index.js:31-54 | a falsy term fails with MissingTerm, then a falsy page with MissingPage; otherwise one request with the page query |
| Nyaa.SearchPageRejectsBeforeFetch | src/nyaasi/index.js:32-40 | a rejected call ends with a validation error whatever the feed would have answered, so no request matters to it |
| Nyaa.SearchByUserAndByPage | src/nyaasi/index.js:138-164 | a falsy user fails with MissingUser, then a falsy page with MissingPage; otherwise the result is a prefix of the page's records, the first min(n, length) when n > 0 and the whole page when n is falsy |
| Nyaa.UserFetch | src/nyaasi/index.js:141-163 | page k as the user loops fetch it through the single-object call: a falsy user fails; for a truthy page it succeeds exactly when the feed answers, with the page's first min(opts.n or 75, length) records |
| Nyaa.UserPageFirstRecords | src/nyaasi/index.js:159-163 | with n > 0 the result is the records of the page's first min(n, length) items, in feed order |
| Nyaa.List | src/nyaasi/index.js:261-279 | no validation; one request with the listing query, which is the page query for that category without a term |
| Nyaa.SearchAll | src/nyaasi/index.js:62-86 | a falsy term fails; a page-1 failure is the result; otherwise it succeeds exactly when every page 2..maxPage answers, and then is pages 1..maxPage in ascending order |
| Nyaa.SearchAllAsWritten | src/nyaasi/index.js:62-85 | as written, fails exactly on a falsy term (with the missing-term error) or a page-1 failure (with page 1's feed error), and otherwise resolves to undefined |
| Nyaa.SearchAllAsWrittenLosesResults | src/nyaasi/index.js:72-85 | a non-empty page 1 still makes the as-written searchAll resolve to undefined, where the corrected one returns those records |
| Nyaa.SearchAllPageOrder | src/nyaasi/index.js:74-85 | when pages 1..maxPage all answer, searchAll returns them concatenated in ascending page order |
| Nyaa.SearchAllStalls | src/nyaasi/index.js:76-80 | a fanned-out page that fails is retried without end, so the call never settles |
| Nyaa.SearchAllRequests | src/nyaasi/index.js:72-81 | the corrected searchAll first asks for page 1; a page-1 failure ends the requests there; once page 1 has answered it asks for exactly pages 2..maxPage in order; nothing on a falsy term |
| Nyaa.SearchAllFrame | src/nyaasi/index.js:72-85 | the corrected searchAll's result depends only on the feed's answers to the queries it sends: two feeds that agree on them give the same result |
| Nyaa.SearchAllAnyCompletionOrder | src/nyaasi/index.js:74-85 | whatever order the fanned-out pages complete in, the corrected searchAll is page 1 followed by the joined pages in page order |
| Nyaa.Search | src/nyaasi/index.js:95-125 | a falsy term fails before any request; a falsy n is searchAll, with searchAll's requests; otherwise the bounded loop over search pages, requesting pages 1, 2, ... in order up to and including the first failing or empty page and at most ceil(n/75) of them, with at most n records |
| Nyaa.SearchHundred | src/nyaasi/index.js:113-123 | for n = 100 with a full page 1 and at least 25 records on page 2, exactly 100 records: page 1's then the start of page 2's |
| Nyaa.SearchAllByUser | src/nyaasi/index.js:173-207 | a falsy user fails before any request; otherwise the exhaustive user loop, requesting pages 1, 2, ... in order up to and including the first failing page, and never more than 15; a not-found never surfaces as an error |
| Nyaa.SearchAllByUserNotFoundOnFour | src/nyaasi/index.js:188-206 | a not-found on page 4 after three answered pages gives pages 1..3 and no error |
| Nyaa.SearchByUser | src/nyaasi/index.js:217-252 | a falsy user fails; a falsy n is searchAllByUser, with searchAllByUser's requests (pages 1, 2, ... up to and including the first failing page, never more than 15); otherwise the bounded loop over the user's pages, requesting pages 1, 2, ... in order up to and including the first failing or empty page and at most ceil(n/75) of them, with at most n records |
| Paging.PagesFor | src/nyaasi/index.js:114 | the page budget r = ceil(n/75) satisfies (r-1)*75 < n <= r*75 |
| Paging.SliceTo | src/nyaasi/index.js:123 | slice(0, end) is a prefix of min(end, length) elements, or length+end clamped at 0 for a negative end |
| Paging.FirstStop | src/nyaasi/index.js:116-120 | the page that ends a loop is the first failing (or, for the bounded loop, empty) page in range, every earlier page having neither failed nor been empty |
| Paging.Bounded | src/nyaasi/index.js:110-123 | the bounded result holds at most n records and is a prefix of pages 1..ceil(n/75) in ascending order; it is an error exactly when the page that ends the loop failed |
| Paging.CollectBounded | src/nyaasi/index.js:110-123 | the loop equals the reference; it fetches pages 1, 2, ... in order, at most ceil(n/75); every page but the last was answered and non-empty; it stops early only after an empty page; an error is the last page's failure |
| Paging.BoundedExact | src/nyaasi/index.js:121-123 | when every page in budget is non-empty and they hold at least n records, the result is exactly the first n records of pages 1..ceil(n/75) |
| Paging.BoundedExactWhenFetchedHold | src/nyaasi/index.js:116-123 | whenever the loop succeeds and the pages it fetched hold at least n records, the result is exactly n records, the first n of those pages |
| Paging.PagesUpToStep | src/nyaasi/index.js:118 | pages 1..k are pages 1..k-1 followed by page k's records |
| Paging.BoundedFullPages | src/nyaasi/index.js:114-123 | pages of 75 records each always give exactly n records |
| Paging.BoundedShortPageContinues | src/nyaasi/index.js:116-120 | a short but non-empty page inside the budget does not end the loop: the next page is fetched |
| Paging.Exhaust | src/nyaasi/index.js:184-206 | the exhaustive user result is never a not-found error |
| Paging.LaggedAppend | src/nyaasi/index.js:190 | appending the records held back from page k-1 to pages 1..k-2 gives pages 1..k-1 |
| Paging.LaggedLoop | src/nyaasi/index.js:184-206 | the loop's last fetch is page 1..15, every earlier page answered, and it stops before 15 only at a failure; an answered last page gives pages 1..14, a not-found on page k gives pages 1..k-1, any other failure is that error |
| Paging.CollectAllByUser | src/nyaasi/index.js:184-206 | the loop equals the reference; it fetches pages 1, 2, ... in order up to and including the first failing page, never more than 15; every page but the last answered; an error is the last page's failure |
| Paging.ExhaustNotFound | src/nyaasi/index.js:196-203 | a not-found on page k after k-1 answered pages ends quietly with pages 1..k-1 |
| Paging.ExhaustFails | src/nyaasi/index.js:196-203 | any other failure on page k after k-1 answered pages is the result |
| Paging.ExhaustDropsLastPage | src/nyaasi/index.js:188-198 | with fifteen answered pages the result is pages 1..14: page 15 is fetched and its records are dropped |
| Paging.FanOut | src/nyaasi/index.js:74-81 | the fan-out of pages lo..hi settles exactly when every page answers, with one entry per page in page order; otherwise it never settles |
| Paging.FanOutFrame | src/nyaasi/index.js:74-81 | the fan-out depends only on the answers for pages lo..hi |
| Paging.Reduce | src/nyaasi/index.js:85 | the reduce with concatenation is the seed followed by every page's records, page after page |
| Paging.ReduceFanOut | src/nyaasi/index.js:85 | folding concatenation over the fan-out, seeded with pages 1..lo-1, gives pages 1..hi in ascending order |
| Paging.SettleSlot | src/nyaasi/index.js:83 | in Promise.all a slot holds its own task's value once that task completed and is untouched otherwise |
| Paging.Settle | src/nyaasi/index.js:83 | filling Promise.all's slots as the tasks complete keeps one slot per task; what each slot then holds is Paging.SettleSlot |
| Paging.JoinIgnoresCompletionOrder | src/nyaasi/index.js:83 | once every task has completed, slot i holds task i's value, so any two completion orders resolve to the same array, and that array is the tasks' values in task order |
| Paging.Resolved | src/nyaasi/index.js:83 | the resolved array has one value per slot, the value that slot holds |
| Paging.Join | src/nyaasi/index.js:83 | the array Promise.all resolves to is the tasks' values in task order, for any completion order |

## Left out

- The RSS parser's construction and its custom-field mapping (`nyaa:infoHash` to `hash` and so on), and the request itself: the feed is the oracle `Feed.Oracle`, and raw items arrive with those fields already named.
- URL building through `URLSearchParams` and the base URL: the query is the record `Feed.Params`, not its encoded text.
- `new Date(item.isoDate)`: the host's date parsing is replaced by `Scrap.Timestamp`, made from the ISO text. Parsing can map two texts to one date, so `Scrap.Restore` takes the date text as an argument and rebuilds only the ten text fields from a record.
- Fields missing from a raw item (which become undefined on the record): every raw field is modelled as present text.
- The one-second delay between retries and an upstream whose answers change over time: the oracle is a function of the query, so a page that fails fails on every retry and the model says the call never settles. A page that fails and later succeeds is not modelled.
- `Promise.all` concurrency: the fan-out is a sequential positional map, and `Paging.Settle` models the join for any completion order.
- Argument-shape overloading (`typeof x === 'object'`) and the writes into `opts` in the user loops: each entry point has one structured signature. The user loops' call of `searchByUserAndByPage` in single-object form is kept as its effect, a per-page limit of `opts.n || 75` (`Options.n`).
- The `includeMaxPage` argument of `searchPage`: `parseItems` ignores it, so it has no effect and is not a parameter.
- Non-integer and non-string argument values (a fractional n, a numeric term): terms, users and categories are strings, pages and counts are integers.
- Whether the feed library puts the HTTP status on the error it throws: the model assumes it does, as the `e.statusCode !== 404` test expects.
- Nyaa.SearchAll: takes `maxPage` as an input, because the code never obtains it (see Findings).
- Nyaa.Search: its falsy-n branch is the corrected searchAll (`Nyaa.SearchAll`, with `maxPage` as an input). As written, `search(term)` sends one request and resolves to undefined (see Findings).
- Nyaa.UserFetch: pins the records down only for a limit `opts.n >= 0`. A negative limit cuts records from the end of the page, as `Paging.SliceTo` states.
- Nyaa.SearchAllRequests: lists the requests of the corrected searchAll. As written, only page 1 is requested.

## Findings

| source | as written | input that shows it | evidently intended | confidence | as-written member | corrected member |
|---|---|---|---|---|---|---|
| src/nyaasi/index.js:72-85 | destructures `{ results, maxPage }` from the array `searchPage` returns, so both are undefined; no page after 1 is requested and `reduce` returns its undefined seed | `searchAll('x')` whose page 1 holds any records | page 1's records followed by pages 2..maxPage in page order | high; not executed | Nyaa.SearchAllAsWritten | Nyaa.SearchAll |

=== FILE: feed.dfy ===
/** The boundary with the RSS feed: what one feed request is asked for (the
    query parameters), what it answers (a document of raw items, or a
    failure), and the errors the library's operations end with.

    The feed itself (URL encoding, HTTP, XML parsing) is an oracle: a pure
    function from the query parameters to the feed's answer. */
module Feed {
  import opened Values

  /** One `<item>` of the feed as the parser hands it over, custom fields
      included. Every field is the feed's text; nothing is converted. */
  datatype RawItem = RawItem(
    title: string,
    hash: string,
    isoDate: string,
    filesize: string,
    contentSnippet: string,
    category: string,
    subCategory: string,
    link: string,
    seeders: string,
    leechers: string,
    completed: string)

  /** The parsed feed; only its `items` are read. */
  datatype Document = Document(items: seq<RawItem>)

  /** Why a feed request failed: an HTTP status, or no status at all. */
  datatype FeedError = HttpStatus(code: int) | Transport

  datatype FeedResult = Fetched(doc: Document) | FeedFailed(failure: FeedError)

  /** The query of one feed request. A key a builder does not send is None. */
  datatype Params = Params(
    u: Option<string>,
    f: int,
    c: string,
    q: Option<string>,
    p: int,
    s: Option<string>,
    o: Option<string>)

  /** The keys present in the query string. */
  function Keys(params: Params): set<string>
  {
    (if params.u.Some? then {"u"} else {})
    + {"f", "c"}
    + (if params.q.Some? then {"q"} else {})
    + {"p"}
    + (if params.s.Some? then {"s"} else {})
    + (if params.o.Some? then {"o"} else {})
  }

  /** The network and the RSS parser, as one function. */
  type Oracle = Params -> FeedResult

  /** How an operation ends when it does not return records. `NeverSettles`
      stands for a promise that never resolves (a page retried forever). */
  datatype Error =
    | MissingTerm
    | MissingPage
    | MissingUser
    | Upstream(cause: FeedError)
    | NeverSettles

  /** The `e.statusCode === 404` test of the user pagination. */
  predicate IsNotFound(e: Error)
  {
    e == Upstream(HttpStatus(404))
  }

  datatype Result<+T> = Ok(value: T) | Err(error: Error) {
    predicate IsFailure()
    {
      Err?
    }

    function PropagateFailure<U>(): Result<U>
      requires Err?
    {
      Err(error)
    }

    function Extract(): T
      requires Ok?
    {
      value
    }
  }
}

=== FILE: nyaa.dfy ===
/** The entry points of the library: one-page searches, the paginated
    searches built on them, and the category listing. Every feed request goes
    through the oracle `feed`; `requests` lists the queries a loop sent, in
    the order it sent them. */
module Nyaa {
  import opened Values
  import opened Feed
  import opened Scrap
  import opened Query
  import opened Paging

  /** One feed request and the records of its answer. */
  function Fetch(feed: Oracle, params: Params): (r: Result<seq<Record>>)
    ensures r.Ok? <==> feed(params).Fetched?
    ensures r.Ok? ==> r.value == ParseItems(feed(params).doc)
    ensures r.Err? ==> r.error == Upstream(feed(params).failure)
  {
    match feed(params)
    case Fetched(doc) => Ok(ParseItems(doc))
    case FeedFailed(e) => Err(Upstream(e))
  }

  /** `searchPage`: a falsy term or page fails before any request; otherwise
      one request with the search query. */
  function SearchPage(term: string, p: int, opts: Options, feed: Oracle): (r: Result<seq<Record>>)
    ensures term == "" ==> r == Err(MissingTerm)
    ensures term != "" && p == 0 ==> r == Err(MissingPage)
    ensures term != "" && p != 0 ==> r == Fetch(feed, SearchParams(term, p, opts))
  {
    if term == "" then Err(MissingTerm)
    else if p == 0 then Err(MissingPage)
    else Fetch(feed, SearchParams(term, p, opts))
  }

  /** Validation happens before the feed is asked anything: a rejected call
      ends the same way whatever the feed would have answered. */
  lemma SearchPageRejectsBeforeFetch(term: string, p: int, opts: Options, feed1: Oracle, feed2: Oracle)
    requires term == "" || p == 0
    ensures SearchPage(term, p, opts, feed1) == SearchPage(term, p, opts, feed2)
    ensures SearchPage(term, p, opts, feed1).Err?
    ensures SearchPage(term, p, opts, feed1).error in {MissingTerm, MissingPage}
  {
  }

  /** `searchByUserAndByPage`: a falsy user or page fails before any request;
      otherwise the page's records cut by `slice(0, n || length)`. */
  function SearchByUserAndByPage(user: string, term: string, p: int, n: int, opts: Options, feed: Oracle): (r: Result<seq<Record>>)
    ensures user == "" ==> r == Err(MissingUser)
    ensures user != "" && p == 0 ==> r == Err(MissingPage)
    ensures user != "" && p != 0 ==> (r.Ok? <==> feed(UserParams(user, term, p, opts)).Fetched?)
    ensures r.Ok? ==> r.value <= ParseItems(feed(UserParams(user, term, p, opts)).doc)
    ensures r.Ok? && n > 0 ==> r.value == NormalizeAll(feed(UserParams(user, term, p, opts)).doc.items[..Min(n, |feed(UserParams(user, term, p, opts)).doc.items|)])
    ensures r.Ok? && n == 0 ==> r.value == ParseItems(feed(UserParams(user, term, p, opts)).doc)
  {
    if user == "" then Err(MissingUser)
    else if p == 0 then Err(MissingPage)
    else
      var results :- Fetch(feed, UserParams(user, term, p, opts));
      Ok(SliceTo(results, OrInt(n, |results|)))
  }

  /** The first min(n, length) records of the page, in feed order. */
  lemma UserPageFirstRecords(user: string, term: string, p: int, n: int, opts: Options, feed: Oracle)
    requires user != "" && p != 0 && n > 0
    requires feed(UserParams(user, term, p, opts)).Fetched?
    ensures var items := feed(UserParams(user, term, p, opts)).doc.items;
            SearchByUserAndByPage(user, term, p, n, opts, feed)
            == Ok(NormalizeAll(items[..Min(n, |items|)]))
  {
  }

  /** `list`: no validation, one request with the listing query. */
  function List(c: string, p: int, opts: Options, feed: Oracle): (r: Result<seq<Record>>)
    ensures r == Fetch(feed, ListParams(c, p, opts))
    ensures forall term :: r == Fetch(feed, SearchParams(term, ListParams(c, p, opts).p, opts.(category := c)).(q := None))
  {
    Fetch(feed, ListParams(c, p, opts))
  }

  // ---------------------------------------------------------------------
  // Search by term.

  /** Page k of a term search, as the pagination loops see it. */
  function SearchFetch(term: string, opts: Options, feed: Oracle): int -> Result<seq<Record>>
  {
    k => SearchPage(term, k, opts, feed)
  }

  /** `searchAll` with the page count given: page 1 (no retry), then pages
      2..maxPage fetched together with retry, joined in page order. */
  function SearchAll(term: string, opts: Options, maxPage: int, feed: Oracle): (r: Result<seq<Record>>)
    ensures term == "" ==> r == Err(MissingTerm)
    ensures term != "" && SearchPage(term, 1, opts, feed).Err? ==> r == SearchPage(term, 1, opts, feed)
    ensures term != "" && SearchPage(term, 1, opts, feed).Ok? ==>
              (r.Ok? <==> FanOut(SearchFetch(term, opts, feed), 2, maxPage).Ok?)
    ensures r.Ok? ==> r.value == PagesUpTo(SearchFetch(term, opts, feed), Max(maxPage, 1))
  {
    if term == "" then Err(MissingTerm)
    else
      var first :- SearchPage(term, 1, opts, feed);
      var rest :- FanOut(SearchFetch(term, opts, feed), 2, maxPage);
      assert PagesUpTo(SearchFetch(term, opts, feed), 1) == first;
      ReduceFanOut(SearchFetch(term, opts, feed), 2, maxPage);
      Ok(Reduce(first, rest))
  }

  /** `searchAll` as written: the page-1 call returns the array of records,
      and destructuring `{ results, maxPage }` from an array yields undefined
      for both. No further page is requested and `reduce` over no pages
      returns its undefined seed. None stands for undefined. */
  function SearchAllAsWritten(term: string, opts: Options, feed: Oracle): (r: Result<Option<seq<Record>>>)
    ensures r.Err? <==> term == "" || feed(SearchParams(term, 1, opts)).FeedFailed?
    ensures term == "" ==> r == Err(MissingTerm)
    ensures term != "" && r.Err? ==> r.error == Upstream(feed(SearchParams(term, 1, opts)).failure)
    ensures r.Ok? ==> r.value == None
  {
    if term == "" then Err(MissingTerm)
    else
      var _ :- SearchPage(term, 1, opts, feed);
      Ok(None)
  }

  /** Whatever page 1 holds, the as-written `searchAll` resolves to undefined
      rather than to page 1's records. */
  lemma SearchAllAsWrittenLosesResults(term: string, opts: Options, feed: Oracle)
    requires term != ""
    requires feed(SearchParams(term, 1, opts)).Fetched?
    requires feed(SearchParams(term, 1, opts)).doc.items != []
    ensures SearchAllAsWritten(term, opts, feed) == Ok(None)
    ensures SearchAll(term, opts, 1, feed).Ok? && SearchAll(term, opts, 1, feed).value != []
  {
  }

  /** Every page 1..maxPage answers: the result is those pages in ascending order. */
  lemma SearchAllPageOrder(term: string, opts: Options, maxPage: int, feed: Oracle)
    requires term != ""
    requires forall k :: 1 <= k <= Max(maxPage, 1) ==> feed(SearchParams(term, k, opts)).Fetched?
    ensures SearchAll(term, opts, maxPage, feed).Ok?
    ensures SearchAll(term, opts, maxPage, feed).value == PagesUpTo(SearchFetch(term, opts, feed), Max(maxPage, 1))
  {
  }

  /** A fanned-out page that keeps failing is retried forever: the call never settles. */
  lemma SearchAllStalls(term: string, opts: Options, maxPage: int, feed: Oracle, k: int)
    requires term != ""
    requires feed(SearchParams(term, 1, opts)).Fetched?
    requires 2 <= k <= maxPage && feed(SearchParams(term, k, opts)).FeedFailed?
    ensures SearchAll(term, opts, maxPage, feed) == Err(NeverSettles)
  {
    assert SearchFetch(term, opts, feed)(k) == SearchPage(term, k, opts, feed);
  }

  /** The queries `searchAll` sends, first attempts only: page 1, then the
      fanned-out pages once page 1 has answered. */
  function SearchAllRequests(term: string, opts: Options, maxPage: int, feed: Oracle): (reqs: seq<Params>)
    ensures term == "" ==> reqs == []
    ensures term != "" && feed(SearchParams(term, 1, opts)).FeedFailed? ==> reqs == [SearchParams(term, 1, opts)]
    ensures term != "" ==> |reqs| >= 1 && reqs[0] == SearchParams(term, 1, opts)
    ensures forall i :: 0 <= i < |reqs| ==> reqs[i] == SearchParams(term, i + 1, opts)
    ensures |reqs| <= Max(maxPage, 1)
    ensures term != "" && feed(SearchParams(term, 1, opts)).Fetched? ==> |reqs| == Max(maxPage, 1)
  {
    if term == "" then []
    else if feed(SearchParams(term, 1, opts)).FeedFailed? then [SearchParams(term, 1, opts)]
    else seq(Max(maxPage, 1), i => SearchParams(term, i + 1, opts))
  }

  /** The result of `searchAll` depends only on the answers to the queries
      it sends: two feeds that agree on those give the same result. */
  lemma SearchAllFrame(term: string, opts: Options, maxPage: int, feed1: Oracle, feed2: Oracle)
    requires forall q :: q in SearchAllRequests(term, opts, maxPage, feed1) ==> feed1(q) == feed2(q)
    ensures SearchAll(term, opts, maxPage, feed1) == SearchAll(term, opts, maxPage, feed2)
  {
    if term != "" {
      var reqs := SearchAllRequests(term, opts, maxPage, feed1);
      assert reqs[0] == SearchParams(term, 1, opts);
      if feed1(SearchParams(term, 1, opts)).Fetched? {
        var fetch1 := SearchFetch(term, opts, feed1);
        var fetch2 := SearchFetch(term, opts, feed2);
        forall k | 2 <= k <= maxPage
          ensures fetch1(k) == fetch2(k)
        {
          assert reqs[k - 1] == SearchParams(term, k, opts);
        }
        FanOutFrame(fetch1, fetch2, 2, maxPage);
      }
    }
  }

  /** The pages fanned out by `searchAll` may complete in any order: the
      joined array holds page k + 2 in slot k, and the result is page 1
      followed by that array. */
  lemma SearchAllAnyCompletionOrder(term: string, opts: Options, maxPage: int, feed: Oracle, order: seq<int>)
    requires term != "" && SearchPage(term, 1, opts, feed).Ok?
    requires FanOut(SearchFetch(term, opts, feed), 2, maxPage).Ok?
    requires Completes(FanOut(SearchFetch(term, opts, feed), 2, maxPage).value, order)
    ensures var pages := FanOut(SearchFetch(term, opts, feed), 2, maxPage).value;
            SearchAll(term, opts, maxPage, feed)
            == Ok(Reduce(SearchPage(term, 1, opts, feed).value, Join(pages, order)))
  {
  }

  /** `search`: with a falsy n every page (`searchAll`), otherwise pages
      1, 2, ... until an empty page or ceil(n / 75) pages, cut to n records. */
  method Search(term: string, n: int, opts: Options, maxPage: int, feed: Oracle)
    returns (result: Result<seq<Record>>, requests: seq<Params>)
    ensures term == "" ==> result == Err(MissingTerm) && requests == []
    ensures term != "" && n == 0 ==> result == SearchAll(term, opts, maxPage, feed)
    ensures term != "" && n != 0 ==> result == Bounded(SearchFetch(term, opts, feed), n)
    ensures term != "" && n != 0 ==> |requests| == BoundedCount(SearchFetch(term, opts, feed), n)
    ensures term != "" && n == 0 ==> requests == SearchAllRequests(term, opts, maxPage, feed)
    ensures forall i :: 0 <= i < |requests| ==> requests[i] == SearchParams(term, i + 1, opts)
    ensures result.Ok? ==> n != 0 ==> |result.value| <= Max(n, 0)
  {
    if term == "" {
      return Err(MissingTerm), [];
    }
    if n == 0 {
      result := SearchAll(term, opts, maxPage, feed);
      requests := SearchAllRequests(term, opts, maxPage, feed);
      return;
    }
    var pages;
    result, pages := CollectBounded(SearchFetch(term, opts, feed), n);
    requests := seq(|pages|, i requires 0 <= i < |pages| => SearchParams(term, pages[i], opts));
  }

  /** Scenario: 100 results wanted, page 1 holds 75 records and page 2 at
      least 25: the result is exactly 100 records, page 1's then page 2's. */
  lemma SearchHundred(term: string, opts: Options, feed: Oracle)
    requires term != ""
    requires feed(SearchParams(term, 1, opts)).Fetched? && |feed(SearchParams(term, 1, opts)).doc.items| == 75
    requires feed(SearchParams(term, 2, opts)).Fetched? && |feed(SearchParams(term, 2, opts)).doc.items| >= 25
    ensures var r := Bounded(SearchFetch(term, opts, feed), 100);
            r.Ok? && |r.value| == 100
            && r.value == (ParseItems(feed(SearchParams(term, 1, opts)).doc)
                           + ParseItems(feed(SearchParams(term, 2, opts)).doc))[..100]
  {
    var fetch := SearchFetch(term, opts, feed);
    assert fetch(1) == Ok(ParseItems(feed(SearchParams(term, 1, opts)).doc));
    assert fetch(2) == Ok(ParseItems(feed(SearchParams(term, 2, opts)).doc));
    assert PagesFor(100) == 2;
    PagesUpToStep(fetch, 2);
    PagesUpToStep(fetch, 1);
    BoundedExact(fetch, 100);
  }

  // ---------------------------------------------------------------------
  // Search by user.

  /** Page k of a user search, as the pagination loops see it: the loops call
      `searchByUserAndByPage` with one options object, so its per-page limit
      is `opts.n || 75`. */
  function UserFetch(user: string, term: string, opts: Options, feed: Oracle): (fetch: int -> Result<seq<Record>>)
    ensures forall k :: user == "" ==> fetch(k) == Err(MissingUser)
    ensures forall k :: user != "" && k != 0 ==> (fetch(k).Ok? <==> feed(UserParams(user, term, k, opts)).Fetched?)
    ensures forall k :: user != "" && k != 0 && feed(UserParams(user, term, k, opts)).Fetched? && opts.n >= 0 ==>
              var items := feed(UserParams(user, term, k, opts)).doc.items;
              fetch(k).value == NormalizeAll(items[..Min(OrInt(opts.n, PageSize), |items|)])
  {
    k => SearchByUserAndByPage(user, term, k, OrInt(opts.n, PageSize), opts, feed)
  }

  /** `searchAllByUser`: at most fifteen pages, one at a time; a not-found
      ends the loop quietly, any other failure is the result. */
  method SearchAllByUser(user: string, term: string, opts: Options, feed: Oracle)
    returns (result: Result<seq<Record>>, requests: seq<Params>)
    ensures user == "" ==> result == Err(MissingUser) && requests == []
    ensures user != "" ==> result == Exhaust(UserFetch(user, term, opts, feed))
    ensures user != "" ==> 1 <= |requests| <= UserPageCap
    ensures user != "" ==> |requests| == Min(FirstStop(UserFetch(user, term, opts, feed), 1, UserPageCap, false), UserPageCap)
    ensures forall i :: 0 <= i < |requests| ==> requests[i] == UserParams(user, term, i + 1, opts)
    ensures result.Err? && user != "" ==> !IsNotFound(result.error)
  {
    if user == "" {
      return Err(MissingUser), [];
    }
    var pages;
    result, pages := CollectAllByUser(UserFetch(user, term, opts, feed));
    requests := seq(|pages|, i requires 0 <= i < |pages| => UserParams(user, term, pages[i], opts));
  }

  /** Scenario: page 4 is not found after three good pages: the result is
      pages 1..3 and no error. */
  lemma SearchAllByUserNotFoundOnFour(user: string, term: string, opts: Options, feed: Oracle)
    requires user != ""
    requires forall k :: 1 <= k <= 3 ==> feed(UserParams(user, term, k, opts)).Fetched?
    requires feed(UserParams(user, term, 4, opts)) == FeedFailed(HttpStatus(404))
    ensures Exhaust(UserFetch(user, term, opts, feed)) == Ok(PagesUpTo(UserFetch(user, term, opts, feed), 3))
  {
    var fetch := UserFetch(user, term, opts, feed);
    assert fetch(1).Ok? && fetch(2).Ok? && fetch(3).Ok?;
    assert fetch(4) == Err(Upstream(HttpStatus(404)));
    ExhaustNotFound(fetch, 4);
  }

  /** `searchByUser`: with a falsy n `searchAllByUser`, otherwise the bounded
      loop over the user's pages. */
  method SearchByUser(user: string, term: string, n: int, opts: Options, feed: Oracle)
    returns (result: Result<seq<Record>>, requests: seq<Params>)
    ensures user == "" ==> result == Err(MissingUser) && requests == []
    ensures user != "" && n == 0 ==> result == Exhaust(UserFetch(user, term, opts, feed))
    ensures user != "" && n == 0 ==> |requests| == Min(FirstStop(UserFetch(user, term, opts, feed), 1, UserPageCap, false), UserPageCap)
    ensures user != "" && n != 0 ==> result == Bounded(UserFetch(user, term, opts, feed), n)
    ensures user != "" && n != 0 ==> |requests| == BoundedCount(UserFetch(user, term, opts, feed), n)
    ensures forall i :: 0 <= i < |requests| ==> requests[i] == UserParams(user, term, i + 1, opts)
    ensures result.Ok? ==> n != 0 ==> |result.value| <= Max(n, 0)
  {
    if user == "" {
      return Err(MissingUser), [];
    }
    if n == 0 {
      result, requests := SearchAllByUser(user, term, opts, feed);
      return;
    }
    var pages;
    result, pages := CollectBounded(UserFetch(user, term, opts, feed), n);
    requests := seq(|pages|, i requires 0 <= i < |pages| => UserParams(user, term, pages[i], opts));
  }
}

=== FILE: paging.dfy ===
/** The pagination loops of the search entry points, over an abstract page
    fetch `fetch(k)` (page k's records, or the error it failed with).

    Each loop is a method with a reference function beside it. The reference
    functions say which page ends the loop (`FirstStop`) and which pages the
    result is made of (`PagesUpTo`); the methods are proved to agree with them. */
module Paging {
  import opened Values
  import opened Feed

  /** Results per feed page. */
  const PageSize: int := 75
  /** The page cap of the exhaustive user pagination. */
  const UserPageCap: int := 15

  /** `Math.ceil(n / 75)`. */
  function PagesFor(n: int): (r: int)
    ensures (r - 1) * PageSize < n <= r * PageSize
  {
    if n % PageSize == 0 then n / PageSize else n / PageSize + 1
  }

  /** `s.slice(0, end)`: a negative end counts back from the end of s. */
  function SliceTo<T>(s: seq<T>, end: int): (r: seq<T>)
    ensures r <= s
    ensures end >= 0 ==> |r| == Min(end, |s|)
    ensures end < 0 ==> |r| == Max(|s| + end, 0)
  {
    if end < 0 then s[..Max(|s| + end, 0)]
    else if end <= |s| then s[..end]
    else s
  }

  /** The records of a page that succeeded, nothing otherwise. */
  function Payload<T>(r: Result<seq<T>>): seq<T>
  {
    if r.Ok? then r.value else []
  }

  /** Pages 1..k concatenated in ascending page order. */
  function PagesUpTo<T>(fetch: int -> Result<seq<T>>, k: int): seq<T>
    decreases k
  {
    if k <= 0 then [] else PagesUpTo(fetch, k - 1) + Payload(fetch(k))
  }

  /** A page that ends a loop: a failure, or (when empty pages count) an empty page. */
  predicate Stops<T>(r: Result<seq<T>>, emptyStops: bool)
  {
    r.Err? || (emptyStops && r.value == [])
  }

  /** The first page in lo..hi that stops the loop, or hi + 1 when none does. */
  function FirstStop<T>(fetch: int -> Result<seq<T>>, lo: int, hi: int, emptyStops: bool): (r: int)
    requires lo <= hi + 1
    ensures lo <= r <= hi + 1
    ensures forall j :: lo <= j < r ==> !Stops(fetch(j), emptyStops)
    ensures r <= hi ==> Stops(fetch(r), emptyStops)
    decreases hi - lo
  {
    if lo > hi then lo
    else if Stops(fetch(lo), emptyStops) then lo
    else FirstStop(fetch, lo + 1, hi, emptyStops)
  }

  /** A page that stops the loop, reached through pages that do not, is the first stop. */
  lemma FirstStopAt<T>(fetch: int -> Result<seq<T>>, lo: int, hi: int, emptyStops: bool, k: int)
    requires lo <= k <= hi + 1
    requires forall j :: lo <= j < k ==> !Stops(fetch(j), emptyStops)
    requires k <= hi ==> Stops(fetch(k), emptyStops)
    ensures FirstStop(fetch, lo, hi, emptyStops) == k
  {
  }

  /** Page k's records follow pages 1..k-1. */
  lemma PagesUpToStep<T>(fetch: int -> Result<seq<T>>, k: int)
    requires k >= 1
    ensures PagesUpTo(fetch, k) == PagesUpTo(fetch, k - 1) + Payload(fetch(k))
  {
  }

  /** The pages before a later page come first in the concatenation. */
  lemma {:induction false} PagesUpToPrefix<T>(fetch: int -> Result<seq<T>>, j: int, k: int)
    requires j <= k
    ensures PagesUpTo(fetch, j) <= PagesUpTo(fetch, k)
    decreases k - j
  {
    if j < k {
      PagesUpToPrefix(fetch, j, k - 1);
      if k > 0 {
        assert PagesUpTo(fetch, k) == PagesUpTo(fetch, k - 1) + Payload(fetch(k));
      }
    }
  }

  /** Pages of at least `size` records each add up to at least k * size records. */
  lemma {:induction false} PagesUpToLength<T>(fetch: int -> Result<seq<T>>, k: nat, size: nat)
    requires forall j :: 1 <= j <= k ==> fetch(j).Ok? && |fetch(j).value| >= size
    ensures |PagesUpTo(fetch, k)| >= k * size
    decreases k
  {
    if k > 0 {
      PagesUpToLength(fetch, k - 1, size);
    }
  }

  // ---------------------------------------------------------------------
  // Bounded pagination: `search` / `searchByUser` with a truthy n.

  /** The last page the bounded loop may fetch for n results (none when n <= 0). */
  function BoundedLast(n: int): int
  {
    Max(PagesFor(n), 0)
  }

  /** How many pages the bounded loop fetches: up to and including the first
      failing or empty page, and never past BoundedLast(n). */
  function BoundedCount<T>(fetch: int -> Result<seq<T>>, n: int): (k: int)
    ensures 0 <= k <= BoundedLast(n)
  {
    Min(FirstStop(fetch, 1, BoundedLast(n), true), BoundedLast(n))
  }

  /** Reference definition of the bounded loop: the first failing page's error,
      or the first n records of the pages it fetched. */
  function Bounded<T>(fetch: int -> Result<seq<T>>, n: int): (r: Result<seq<T>>)
    ensures r.Ok? ==> |r.value| <= Max(n, 0)
    ensures r.Ok? ==> r.value <= PagesUpTo(fetch, BoundedLast(n))
    ensures r.Err? <==> exists k :: 1 <= k <= BoundedLast(n) && FirstStop(fetch, 1, BoundedLast(n), true) == k && fetch(k).Err?
  {
    var last := BoundedLast(n);
    var stop := FirstStop(fetch, 1, last, true);
    PagesUpToPrefix(fetch, Min(stop, last), last);
    if stop <= last && fetch(stop).Err? then Err(fetch(stop).error)
    else Ok(SliceTo(PagesUpTo(fetch, Min(stop, last)), n))
  }

  /** The loop of `search` with a truthy n: pages 1, 2, ... are fetched one at
      a time until an empty page, a failure, or ceil(n / 75) pages; the
      records gathered are cut to n. `pages` lists the pages fetched. */
  method CollectBounded<T>(fetch: int -> Result<seq<T>>, n: int) returns (result: Result<seq<T>>, pages: seq<int>)
    ensures result == Bounded(fetch, n)
    ensures |pages| == BoundedCount(fetch, n)
    ensures forall i :: 0 <= i < |pages| ==> pages[i] == i + 1
    ensures forall i :: 0 <= i < |pages| - 1 ==> fetch(pages[i]).Ok? && fetch(pages[i]).value != []
    ensures result.Ok? && |pages| < PagesFor(n) ==> |pages| > 0 && fetch(|pages|) == Ok([])
    ensures result.Err? ==> |pages| > 0 && fetch(|pages|) == Err(result.error)
  {
    var maxPage := PagesFor(n);
    var results: seq<T> := [];
    var page := 1;
    var more := true;
    pages := [];
    while more && page <= maxPage
      invariant 1 <= page <= BoundedLast(n) + 1
      invariant |pages| == page - 1
      invariant forall i :: 0 <= i < |pages| ==> pages[i] == i + 1
      invariant results == PagesUpTo(fetch, page - 1)
      invariant forall j :: 1 <= j < page - 1 ==> !Stops(fetch(j), true)
      invariant more ==> forall j :: 1 <= j < page ==> !Stops(fetch(j), true)
      invariant !more ==> page >= 2 && fetch(page - 1) == Ok([])
      decreases BoundedLast(n) + 1 - page, more
    {
      var r := fetch(page);
      pages := pages + [page];
      if r.Err? {
        FirstStopAt(fetch, 1, BoundedLast(n), true, page);
        result := Err(r.error);
        return;
      }
      results := results + r.value;
      page := page + 1;
      more := |r.value| > 0;
    }
    if more {
      FirstStopAt(fetch, 1, BoundedLast(n), true, BoundedLast(n) + 1);
    } else {
      FirstStopAt(fetch, 1, BoundedLast(n), true, page - 1);
    }
    result := Ok(SliceTo(results, n));
  }

  /** The bounded result is exactly n records when every page it may fetch
      has records and together they hold at least n: the first n records of
      pages 1..ceil(n / 75). */
  lemma BoundedExact<T>(fetch: int -> Result<seq<T>>, n: int)
    requires n > 0
    requires forall k :: 1 <= k <= PagesFor(n) ==> fetch(k).Ok? && fetch(k).value != []
    requires |PagesUpTo(fetch, PagesFor(n))| >= n
    ensures Bounded(fetch, n) == Ok(PagesUpTo(fetch, PagesFor(n))[..n])
    ensures |Bounded(fetch, n).value| == n
  {
  }

  /** The bounded result is exactly n records whenever the pages the loop
      fetched hold at least n, however those records are spread over them. */
  lemma BoundedExactWhenFetchedHold<T>(fetch: int -> Result<seq<T>>, n: int)
    requires n >= 0
    requires Bounded(fetch, n).Ok?
    requires |PagesUpTo(fetch, BoundedCount(fetch, n))| >= n
    ensures |Bounded(fetch, n).value| == n
    ensures Bounded(fetch, n).value == PagesUpTo(fetch, BoundedCount(fetch, n))[..n]
  {
  }

  /** Full pages of 75 records always yield exactly n records. */
  lemma BoundedFullPages<T>(fetch: int -> Result<seq<T>>, n: int)
    requires n > 0
    requires forall k :: 1 <= k <= PagesFor(n) ==> fetch(k).Ok? && |fetch(k).value| >= PageSize
    ensures Bounded(fetch, n).Ok? && |Bounded(fetch, n).value| == n
  {
    PagesUpToLength(fetch, PagesFor(n), PageSize);
    BoundedExact(fetch, n);
  }

  /** A short but non-empty page does not end the loop: the next page is fetched. */
  lemma BoundedShortPageContinues<T>(fetch: int -> Result<seq<T>>, n: int, k: int)
    requires 1 <= k < PagesFor(n)
    requires forall j :: 1 <= j <= k ==> fetch(j).Ok? && 0 < |fetch(j).value|
    ensures BoundedCount(fetch, n) > k
  {
  }

  // ---------------------------------------------------------------------
  // Exhaustive user pagination: `searchAllByUser`.

  /** Reference definition of the exhaustive user loop. The loop appends the
      previous page before each fetch, so the last page fetched never reaches
      the result: a not-found on page k leaves pages 1..k-1, fifteen good
      pages leave pages 1..14, and any other failure is the result. */
  function Exhaust<T>(fetch: int -> Result<seq<T>>): (r: Result<seq<T>>)
    ensures r.Err? ==> !IsNotFound(r.error)
  {
    var stop := FirstStop(fetch, 1, UserPageCap, false);
    if stop <= UserPageCap then
      if IsNotFound(fetch(stop).error) then Ok(PagesUpTo(fetch, stop - 1))
      else Err(fetch(stop).error)
    else Ok(PagesUpTo(fetch, UserPageCap - 1))
  }

  /** The loop of `searchAllByUser` appends the previous page's records
      before fetching page `page`, which brings the result to pages 1..page-1. */
  lemma LaggedAppend<T>(fetch: int -> Result<seq<T>>, page: int, results: seq<T>, tmpData: seq<T>)
    requires page >= 1
    requires results == PagesUpTo(fetch, page - 2)
    requires page > 1 ==> fetch(page - 1).Ok?
    requires tmpData == if page == 1 then [] else fetch(page - 1).value
    ensures results + tmpData == PagesUpTo(fetch, page - 1)
  {
    if page > 1 {
      PagesUpToStep(fetch, page - 1);
    }
  }

  /** A not-found on page k, after k-1 good pages, ends the loop quietly with pages 1..k-1. */
  lemma ExhaustNotFound<T>(fetch: int -> Result<seq<T>>, k: int)
    requires 1 <= k <= UserPageCap
    requires forall j :: 1 <= j < k ==> fetch(j).Ok?
    requires fetch(k) == Err(Upstream(HttpStatus(404)))
    ensures Exhaust(fetch) == Ok(PagesUpTo(fetch, k - 1))
  {
    FirstStopAt(fetch, 1, UserPageCap, false, k);
  }

  /** Any other failure on page k, after k-1 good pages, is the result. */
  lemma ExhaustFails<T>(fetch: int -> Result<seq<T>>, k: int)
    requires 1 <= k <= UserPageCap
    requires forall j :: 1 <= j < k ==> fetch(j).Ok?
    requires fetch(k).Err? && !IsNotFound(fetch(k).error)
    ensures Exhaust(fetch) == Err(fetch(k).error)
  {
    FirstStopAt(fetch, 1, UserPageCap, false, k);
  }

  /** With fifteen good pages the result is pages 1..14: page 15 is fetched
      but its records are dropped. */
  lemma ExhaustDropsLastPage<T>(fetch: int -> Result<seq<T>>)
    requires forall j :: 1 <= j <= UserPageCap ==> fetch(j).Ok?
    ensures Exhaust(fetch) == Ok(PagesUpTo(fetch, UserPageCap - 1))
    ensures PagesUpTo(fetch, UserPageCap) == Exhaust(fetch).value + fetch(UserPageCap).value
  {
    FirstStopAt(fetch, 1, UserPageCap, false, UserPageCap + 1);
    PagesUpToStep(fetch, UserPageCap);
  }

  /** The page numbers 1..k in order. */
  function PageRange(k: nat): (r: seq<int>)
    ensures |r| == k
    ensures forall i :: 0 <= i < k ==> r[i] == i + 1
  {
    seq(k, i => i + 1)
  }

  /** The loop of `searchAllByUser`, which appends the previous page before
      each fetch. `last` is the last page it fetched: the first failing page,
      or page 15. A not-found breaks out with the records gathered so far;
      any other failure is thrown. */
  method LaggedLoop<T>(fetch: int -> Result<seq<T>>) returns (result: Result<seq<T>>, last: int)
    ensures 1 <= last <= UserPageCap
    ensures forall j :: 1 <= j < last ==> fetch(j).Ok?
    ensures last < UserPageCap ==> fetch(last).Err?
    ensures fetch(last).Ok? ==> result == Ok(PagesUpTo(fetch, UserPageCap - 1))
    ensures fetch(last).Err? && IsNotFound(fetch(last).error) ==> result == Ok(PagesUpTo(fetch, last - 1))
    ensures fetch(last).Err? && !IsNotFound(fetch(last).error) ==> result == Err(fetch(last).error)
  {
    var page := 1;
    var results: seq<T> := [];
    var tmpData: seq<T> := [];
    while page <= UserPageCap
      invariant 1 <= page <= UserPageCap + 1
      invariant forall j :: 1 <= j < page ==> fetch(j).Ok?
      invariant results == PagesUpTo(fetch, page - 2)
      invariant tmpData == if page == 1 then [] else fetch(page - 1).value
    {
      LaggedAppend(fetch, page, results, tmpData);
      results := results + tmpData;
      var r := fetch(page);
      if r.Err? {
        if !IsNotFound(r.error) {
          return Err(r.error), page;
        }
        return Ok(results), page;
      }
      tmpData := r.value;
      page := page + 1;
    }
    return Ok(results), UserPageCap;
  }

  /** `searchAllByUser`'s pagination: the loop agrees with the reference.
      `pages` lists the pages fetched. */
  method CollectAllByUser<T>(fetch: int -> Result<seq<T>>) returns (result: Result<seq<T>>, pages: seq<int>)
    ensures result == Exhaust(fetch)
    ensures 1 <= |pages| <= UserPageCap
    ensures forall i :: 0 <= i < |pages| ==> pages[i] == i + 1
    ensures forall i :: 0 <= i < |pages| - 1 ==> fetch(pages[i]).Ok?
    ensures |pages| < UserPageCap ==> fetch(|pages|).Err?
    ensures result.Err? ==> fetch(|pages|) == Err(result.error)
    ensures |pages| == Min(FirstStop(fetch, 1, UserPageCap, false), UserPageCap)
  {
    var last;
    result, last := LaggedLoop(fetch);
    pages := PageRange(last);
    if fetch(last).Ok? {
      FirstStopAt(fetch, 1, UserPageCap, false, UserPageCap + 1);
      ExhaustDropsLastPage(fetch);
    } else {
      FirstStopAt(fetch, 1, UserPageCap, false, last);
      if IsNotFound(fetch(last).error) {
        ExhaustNotFound(fetch, last);
      } else {
        ExhaustFails(fetch, last);
      }
    }
  }

  // ---------------------------------------------------------------------
  // Fan-out: the remaining pages of `searchAll`.

  /** Pages lo..hi, each retried until it succeeds. The feed is a function of
      the query, so a page that fails fails on every retry and the join never
      settles. */
  function FanOut<T>(fetch: int -> Result<seq<T>>, lo: int, hi: int): (r: Result<seq<seq<T>>>)
    ensures r.Ok? <==> forall k :: lo <= k <= hi ==> fetch(k).Ok?
    ensures r.Err? ==> r.error == NeverSettles
    ensures r.Ok? ==> |r.value| == Max(hi - lo + 1, 0)
    ensures r.Ok? ==> forall i :: 0 <= i < |r.value| ==> r.value[i] == fetch(lo + i).value
    decreases hi - lo
  {
    if lo > hi then Ok([])
    else if fetch(lo).Err? then Err(NeverSettles)
    else
      var rest :- FanOut(fetch, lo + 1, hi);
      Ok([fetch(lo).value] + rest)
  }

  /** The fan-out depends only on the answers for pages lo..hi. */
  lemma {:induction false} FanOutFrame<T>(fetch1: int -> Result<seq<T>>, fetch2: int -> Result<seq<T>>, lo: int, hi: int)
    requires forall k :: lo <= k <= hi ==> fetch1(k) == fetch2(k)
    ensures FanOut(fetch1, lo, hi) == FanOut(fetch2, lo, hi)
    decreases hi - lo
  {
    if lo <= hi {
      FanOutFrame(fetch1, fetch2, lo + 1, hi);
    }
  }

  /** `pages.reduce((acc, page) => acc.concat(page), first)`. */
  function Reduce<T>(first: seq<T>, pages: seq<seq<T>>): (r: seq<T>)
    ensures r == first + Flatten(pages)
    decreases |pages|
  {
    if pages == [] then first else Reduce(first + pages[0], pages[1..])
  }

  /** The pages' records, page after page. */
  function Flatten<T>(pages: seq<seq<T>>): seq<T>
    decreases |pages|
  {
    if pages == [] then [] else pages[0] + Flatten(pages[1..])
  }

  /** Concatenating the fan-out after page 1 gives pages 1..hi in ascending order. */
  lemma {:induction false} ReduceFanOut<T>(fetch: int -> Result<seq<T>>, lo: int, hi: int)
    requires 2 <= lo
    requires FanOut(fetch, lo, hi).Ok?
    ensures Reduce(PagesUpTo(fetch, lo - 1), FanOut(fetch, lo, hi).value) == PagesUpTo(fetch, Max(hi, lo - 1))
    decreases hi - lo
  {
    var pages := FanOut(fetch, lo, hi).value;
    if lo <= hi {
      assert pages[0] == fetch(lo).value;
      assert pages[1..] == FanOut(fetch, lo + 1, hi).value;
      assert PagesUpTo(fetch, lo) == PagesUpTo(fetch, lo - 1) + pages[0];
      ReduceFanOut(fetch, lo + 1, hi);
    }
  }

  /** `Promise.all` as the slots it fills: each task writes its own slot when
      it completes, whatever the order the tasks complete in. */
  function Settle<T>(slots: seq<Option<T>>, values: seq<T>, order: seq<int>): (r: seq<Option<T>>)
    requires |slots| == |values|
    requires forall i :: 0 <= i < |order| ==> 0 <= order[i] < |values|
    ensures |r| == |slots|
    decreases |order|
  {
    if order == [] then slots
    else Settle(slots[order[0] := Some(values[order[0]])], values, order[1..])
  }

  /** A slot holds its own task's value once the task has completed, and is untouched otherwise. */
  lemma {:induction false} SettleSlot<T>(slots: seq<Option<T>>, values: seq<T>, order: seq<int>, k: int)
    requires |slots| == |values|
    requires forall i :: 0 <= i < |order| ==> 0 <= order[i] < |values|
    requires 0 <= k < |slots|
    ensures Settle(slots, values, order)[k] == if k in order then Some(values[k]) else slots[k]
    decreases |order|
  {
    if order != [] {
      SettleSlot(slots[order[0] := Some(values[order[0]])], values, order[1..], k);
      if k != order[0] {
        assert k in order <==> k in order[1..];
      }
    }
  }

  /** The slots before any task has completed. */
  function Pending<T>(m: nat): (slots: seq<Option<T>>)
    ensures |slots| == m
  {
    seq(m, _ => None)
  }

  /** A completion order: every task completes, and only tasks complete. */
  predicate Completes<T>(values: seq<T>, order: seq<int>)
  {
    && (forall i :: 0 <= i < |order| ==> 0 <= order[i] < |values|)
    && (forall k :: 0 <= k < |values| ==> k in order)
  }

  /** The array `Promise.all` resolves to once every slot is filled. */
  function Resolved<T>(slots: seq<Option<T>>): (r: seq<T>)
    requires forall i :: 0 <= i < |slots| ==> slots[i].Some?
    ensures |r| == |slots|
    ensures forall i :: 0 <= i < |r| ==> slots[i] == Some(r[i])
  {
    seq(|slots|, i requires 0 <= i < |slots| => slots[i].value)
  }

  /** The array `Promise.all` resolves to when its tasks complete in
      `order`: task i's value in slot i, whatever the order. */
  function Join<T>(values: seq<T>, order: seq<int>): (r: seq<T>)
    requires Completes(values, order)
    ensures r == values
  {
    JoinIgnoresCompletionOrder(values, order, order);
    Resolved(Settle(Pending(|values|), values, order))
  }

  /** Once every task has completed, the joined array is positional, so two
      completion orders resolve `Promise.all` to the same array: the tasks'
      values in task order. */
  lemma JoinIgnoresCompletionOrder<T>(values: seq<T>, order1: seq<int>, order2: seq<int>)
    requires Completes(values, order1) && Completes(values, order2)
    ensures forall k :: 0 <= k < |values| ==> Settle(Pending(|values|), values, order1)[k] == Some(values[k])
    ensures Settle(Pending(|values|), values, order1) == Settle(Pending(|values|), values, order2)
    ensures Resolved(Settle(Pending(|values|), values, order1)) == values
  {
    var slots: seq<Option<T>> := Pending(|values|);
    forall k | 0 <= k < |values|
      ensures Settle(slots, values, order1)[k] == Some(values[k])
      ensures Settle(slots, values, order2)[k] == Some(values[k])
    {
      SettleSlot(slots, values, order1, k);
      SettleSlot(slots, values, order2, k);
    }
  }
}

=== FILE: query.dfy ===
/** The query parameters each entry point sends. An option the caller left
    out is modelled by its falsy value (0 or ""), and `||` then falls back to
    the library's default. */
module Query {
  import opened Values
  import opened Feed

  /** The options bag: filter, category, sort field, sort direction, and the
      `n` read when a page is fetched through the single-object form. */
  datatype Options = Options(filter: int, category: string, sort: string, direction: string, n: int)

  const NoOptions := Options(0, "", "", "", 0)

  const DefaultFilter := 0
  const DefaultCategory := "1_0"
  const DefaultSort := "id"
  const DefaultDirection := "desc"

  /** The query of `searchPage`. */
  function SearchParams(term: string, p: int, opts: Options): (r: Params)
    ensures Keys(r) == {"f", "c", "q", "p", "s", "o"}
    ensures r.q == Some(term) && r.p == p
    ensures r.f == opts.filter
    ensures r.c == (if opts.category == "" then DefaultCategory else opts.category)
    ensures r.s == Some(if opts.sort == "" then DefaultSort else opts.sort)
    ensures r.o == Some(if opts.direction == "" then DefaultDirection else opts.direction)
  {
    Params(None, OrInt(opts.filter, DefaultFilter), OrStr(opts.category, DefaultCategory),
           Some(term), p, Some(OrStr(opts.sort, DefaultSort)),
           Some(OrStr(opts.direction, DefaultDirection)))
  }

  /** The query of `searchByUserAndByPage`: the user is added and neither
      sort key is sent. */
  function UserParams(user: string, term: string, p: int, opts: Options): (r: Params)
    ensures Keys(r) == {"u", "f", "c", "q", "p"}
    ensures r.u == Some(user) && r.q == Some(term) && r.p == p
    ensures r == SearchParams(term, p, opts).(u := Some(user), s := None, o := None)
  {
    Params(Some(user), OrInt(opts.filter, DefaultFilter), OrStr(opts.category, DefaultCategory),
           Some(OrStr(term, "")), p, None, None)
  }

  /** The query of `list`: the category is a positional argument, the page
      defaults to 1 and no term is sent. */
  function ListParams(c: string, p: int, opts: Options): (r: Params)
    ensures Keys(r) == {"f", "c", "p", "s", "o"}
    ensures r.p == (if p == 0 then 1 else p)
    ensures r.c == (if c == "" then DefaultCategory else c)
    ensures forall term :: r == SearchParams(term, r.p, opts.(category := c)).(q := None)
  {
    Params(None, OrInt(opts.filter, DefaultFilter), OrStr(c, DefaultCategory), None,
           OrInt(p, 1), Some(OrStr(opts.sort, DefaultSort)),
           Some(OrStr(opts.direction, DefaultDirection)))
  }

  /** With no options every defaulted key carries its documented default,
      and none of them is ever falsy. */
  lemma DefaultsAreTruthy(term: string, p: int, opts: Options)
    ensures SearchParams(term, p, NoOptions)
         == Params(None, 0, "1_0", Some(term), p, Some("id"), Some("desc"))
    ensures var r := SearchParams(term, p, opts); r.c != "" && r.s.value != "" && r.o.value != ""
  {
  }
}

=== FILE: scrap.dfy ===
/** `parseItems`: every raw feed item becomes one result record, in feed
    order, by renaming fields. Nothing is filtered or validated. */
module Scrap {
  import opened Feed

  /** Stand-in for `new Date(item.isoDate)`: the host's date parsing is not
      modelled, so a timestamp is known only by the text it was made from. */
  datatype Timestamp = DateOf(iso: string)

  datatype Record = Record(
    name: string,
    hash: string,
    date: Timestamp,
    filesize: string,
    description: string,
    category: string,
    subCategory: string,
    torrent: string,
    seeders: string,
    leechers: string,
    completed: string)

  /** The raw item a record was made from, given the item's date text. The
      ten text fields come back from the record; the date does not, since
      parsing a date can map different texts to one timestamp. */
  function Restore(r: Record, isoDate: string): RawItem
  {
    RawItem(r.name, r.hash, isoDate, r.filesize, r.description, r.category,
            r.subCategory, r.torrent, r.seeders, r.leechers, r.completed)
  }

  /** One raw item as a result record. */
  function Normalize(item: RawItem): (r: Record)
    ensures r.name == item.title && r.hash == item.hash
    ensures r.date == DateOf(item.isoDate) && r.filesize == item.filesize
    ensures r.description == item.contentSnippet
    ensures r.category == item.category && r.subCategory == item.subCategory
    ensures r.torrent == item.link
    ensures r.seeders == item.seeders && r.leechers == item.leechers
    ensures r.completed == item.completed
    ensures Restore(r, item.isoDate) == item
  {
    Record(item.title, item.hash, DateOf(item.isoDate), item.filesize, item.contentSnippet,
           item.category, item.subCategory, item.link, item.seeders, item.leechers,
           item.completed)
  }

  /** `items.map(Normalize)`. */
  function NormalizeAll(items: seq<RawItem>): (r: seq<Record>)
    ensures |r| == |items|
    ensures forall i :: 0 <= i < |items| ==> r[i] == Normalize(items[i])
    decreases |items|
  {
    if items == [] then [] else [Normalize(items[0])] + NormalizeAll(items[1..])
  }

  /** The records of one feed document. */
  function ParseItems(data: Document): (r: seq<Record>)
    ensures |r| == |data.items|
    ensures forall i :: 0 <= i < |r| ==> Restore(r[i], data.items[i].isoDate) == data.items[i]
    ensures forall i :: 0 <= i < |r| ==> r[i].date == DateOf(data.items[i].isoDate)
  {
    NormalizeAll(data.items)
  }

  /** Normalising a concatenation normalises each part in place, so records
      keep the relative order their items had in the feed. */
  lemma NormalizeAllAppend(a: seq<RawItem>, b: seq<RawItem>)
    ensures NormalizeAll(a + b) == NormalizeAll(a) + NormalizeAll(b)
  {
  }
}

=== FILE: values.dfy ===
/** Small value helpers shared by every module: an optional value and the
    JavaScript `x || d` fallback on the two kinds of option the library reads. */
module Values {

  datatype Option<+T> = None | Some(value: T)

  /** `x || d` on a string: the empty string is the only falsy string. */
  function OrStr(x: string, d: string): string
  {
    if x == "" then d else x
  }

  /** `x || d` on an integer: zero is the only falsy integer. */
  function OrInt(x: int, d: int): int
  {
    if x == 0 then d else x
  }

  function Min(a: int, b: int): int
  {
    if a <= b then a else b
  }

  function Max(a: int, b: int): int
  {
    if a <= b then b else a
  }
}
